=== FILE: README.md ===
# Loan application form: report clean-up and submission flow

A Dafny model of the core of a small Next.js loan-application page. The page
collects 23 facts about a company, validates them with a Yup schema, sends
them to a chat-completion endpoint and shows the HTML report that comes back.
Users can read the report inline or download it as a PDF. The model covers
two parts.

- **`stripHtmlTags`** (`src/lib/utils.ts`). Turns the HTML report into the
  plain text handed to the PDF. After the browser extracts the text it:
  deletes every "```html" and then every "```"; collapses each run of two or
  more spaces to one space; collapses each run of three or more line feeds to
  two; trims ECMAScript white space from both ends (`String.prototype.trim`,
  section 22.1.3.32 of ECMA-262). The modules are:
  - `Runs`: run-length vocabulary;
  - `Rewrite`: the two regex replacements, as scans;
  - `Whitespace`: `trim`;
  - `Cleanup`: the pipeline.
- **The `LoanApplicationForm` component**
  (`src/components/LoanApplicationForm.tsx`), in two modules:
  - `Schema`: the `FormData` fields and the validation schema, and what the
    schema reports for a given set of field values;
  - `LoanForm`: `onSubmit`, the resolver gate in front of it, `handleBack`,
    the render, and sessions of user actions replayed from the initial state.

`Wrappers` holds `Option` and a map lookup.

What the page does outside the model is a parameter:
- the DOM parse and `textContent` are a function `string -> string`;
- Yup's "casts to a number" is a predicate `string -> bool`;
- how the network request ended is a `Response` value:
  - `Ok(choices)`;
  - `NotOk`;
  - `Threw`, which covers the fetch failing or the body not being JSON.

Where the code does something a reader of the page might not expect, the model follows the code:
- No single-flight guard. The submit button is never disabled, so a valid
  form is sent again while a request is loading (`SubmitWhileLoading`).
- `reset()` runs after a non-ok response as well as after a report. It does
  not run when the request throws, so the typed values stay (`Settle`).
- An ok reply whose first choice is "" is taken as a report. `reset()` wipes
  the typed values, no alert is raised, and the form comes back because ""
  is falsy (`EmptyReplyClearsForm`).
- The number rules have no bounds. Negative or fractional amounts pass
  (`CheckField`).
- `required` on a string rejects only the empty string. It does not trim, so
  "   " passes (`CheckField`).

## Model

| member | source | states |
|---|---|---|
| Rewrite.RemoveAllUnchangedIff | src/lib/utils.ts:15 | a global literal deletion leaves the text unchanged exactly when the pattern occurs nowhere in it |
| Rewrite.RemoveAllLeading | src/lib/utils.ts:15 | an occurrence at the front is deleted whole and scanning resumes after it |
| Rewrite.RemoveRepeatLeadingRun | src/lib/utils.ts:15 | deleting every "```" shortens a leading run of k backticks to k mod 3 |
| Rewrite.RemoveRepeatNoRun | src/lib/utils.ts:15 | after deleting every n-in-a-row of a character, no n-in-a-row of it is left: the global delete reaches a fixpoint in one pass |
| Rewrite.CollapseLeadingRun | src/lib/utils.ts:19-22 | a leading run of the collapsed character comes out as `keep` copies if it had at least `min`, otherwise unchanged |
| Rewrite.CollapseOtherRun | src/lib/utils.ts:19-22 | a leading run of any other character passes through the collapse unchanged |
| Rewrite.CollapseKeepsOthers | src/lib/utils.ts:17-22 | with every collapsed character taken out, the text is the same before and after: tabs, other white space and all other characters survive, in order |
| Rewrite.CollapseNoRun | src/lib/utils.ts:19-22 | after the collapse no run of the character reaches `min` |
| Rewrite.CollapseKeepsNoRun | src/lib/utils.ts:19-22 | collapsing one character never creates a long run of another |
| Rewrite.CollapseUnchangedIff | src/lib/utils.ts:19-22 | the collapse changes the text exactly when some run reaches `min` |
| Rewrite.CollapseAppend | src/lib/utils.ts:19-22 | the collapse works piecewise across a boundary where the right part does not start with the character |
| Rewrite.CollapseOneRun | src/lib/utils.ts:19-22 | a run of k copies followed by other text becomes `keep` copies when k >= `min`, else stays k copies; the rest is collapsed on its own |
| Rewrite.CollapseShortRun | src/lib/utils.ts:19-22 | a run shorter than `min` is left alone |
| Whitespace.LeadingWhiteSpace | src/lib/utils.ts:24 | the count is the longest white-space prefix: all of it is white space and the next code point is not |
| Whitespace.TrailingWhiteSpace | src/lib/utils.ts:24 | the count is the longest white-space suffix |
| Whitespace.Trim | src/lib/utils.ts:24 | the result is a slice of the input with only white space cut off on either side, and neither end of it is white space |
| Whitespace.TrimUnique | src/lib/utils.ts:24 | any such slice equals `Trim`'s result, so trimming is determined by these properties |
| Whitespace.TrimUnchangedIff | src/lib/utils.ts:24 | trimming leaves the text unchanged exactly when neither end is white space |
| Cleanup.StripFences | src/lib/utils.ts:15 | after deleting "```html" and then "```" no "```" is left, and the text is no longer |
| Cleanup.CollapseSpaces | src/lib/utils.ts:19 | no two spaces are left in a row; fence-free text stays fence-free |
| Cleanup.CollapseNewlines | src/lib/utils.ts:22 | no three line feeds are left in a row; text without fences or double spaces keeps that |
| Cleanup.CleanText | src/lib/utils.ts:14-24 | the cleaned text has no "```", no double space, no triple line feed, no white space at either end, and is no longer than its input |
| Cleanup.StripHtmlTags | src/lib/utils.ts:3-25 | the same guarantees for the whole function, measured against the extracted text |
| Cleanup.CleanFixpointIff | src/lib/utils.ts:14-24 | clean-up leaves a text unchanged exactly when it has no "```", no double space, no triple line feed and no white space at either end, so clean text (single line feeds and paragraph breaks included) survives whole |
| Cleanup.CleanIdempotent | src/lib/utils.ts:14-24 | cleaning already-cleaned text changes nothing |
| Cleanup.OpeningFenceVanishes | src/lib/utils.ts:15 | a leading opening "```html" disappears completely, "html" included |
| Cleanup.OpeningFenceVanishesAnywhere | src/lib/utils.ts:15 | every "```html" present in the input, after a preamble or at the head of a later block, is deleted whole by the first replace, and the text on either side is processed as if it were alone |
| Rewrite.RemoveAllSplits | src/lib/utils.ts:15 | a copy of a pattern that cannot overlap itself is deleted whole wherever it stands: the left-to-right scan over the text before it ends exactly where it begins |
| Cleanup.DeletionFormsFence | src/lib/utils.ts:15 | the first replace can join two pieces into a new "```html" ("```h```htmltml" becomes "```html"), so the two replaces turn that input into "html": the guarantee is only about fences present in the input |
| Cleanup.SwappedOrderLeavesHtml | src/lib/utils.ts:15 | doing the two deletions the other way round would leave "html" behind, so their order matters |
| Cleanup.FenceOrderMatters | src/lib/utils.ts:15 | "```html" alone cleans to "" in the source's order and to "html" in the swapped order |
| Cleanup.CleanExample | src/lib/utils.ts:14-24 | "```htmlHello   world\n\n\n\nBye```" cleans to "Hello world\n\nBye" |
| Schema.SchemaMatchesFormData | src/components/LoanApplicationForm.tsx:10-98 | the schema and `FormData` list the same 23 names in the same order; a field has a number rule exactly when it is declared `number`, and those are the five amount fields |
| Schema.SchemaKeysDistinct | src/components/LoanApplicationForm.tsx:49-98 | no field appears twice in the schema |
| Schema.SchemaMessages | src/components/LoanApplicationForm.tsx:49-98 | every number rule's type error is "Amount must be a number", and no two fields share a required message |
| Schema.CheckField | src/components/LoanApplicationForm.tsx:49-98 | a missing value gets the required message; a present string fails exactly when it is empty; a present amount fails exactly when it does not cast to a number, and then gets the type error |
| Schema.ValidateWith | src/components/LoanApplicationForm.tsx:49-98 | every rule is checked: a field is in the error map exactly when its rule fails, with that rule's message, and no other key appears |
| Schema.Validate | src/components/LoanApplicationForm.tsx:49-98 | the same for the page's own schema |
| Schema.AcceptedIff | src/components/LoanApplicationForm.tsx:49-98 | the form is accepted exactly when every schema field is present, every text field holds a non-empty string and every amount field holds a number |
| Schema.NonNumericLoanAmount | src/components/LoanApplicationForm.tsx:73-75 | a loan amount that is not a number is reported with "Amount must be a number", whatever the other fields hold |
| Schema.BlankFormErrors | src/components/LoanApplicationForm.tsx:49-98 | a form whose inputs all read "" fails every text rule with its required message and each amount rule with "Amount must be a number" exactly when "" does not cast to a number; it is never accepted |
| LoanForm.BeginSubmit | src/components/LoanApplicationForm.tsx:113 | submitting sets `loading` and touches nothing else |
| LoanForm.Settle | src/components/LoanApplicationForm.tsx:115-156 | an ok response with choices sets the report to the first choice and resets the form with no alert; a non-ok response keeps the report, resets the form and alerts "Error in generating report"; a throw, including an ok response with no choices, keeps report and values and alerts "Failed to submit form"; the alert text is "Error in generating report. Please try again." for a non-ok response and "Failed to submit form. Please try again." otherwise; `loading` ends false |
| LoanForm.OnSubmit | src/components/LoanApplicationForm.tsx:112-157 | `loading` ends false; the report changes only to the first choice of an ok response; no alert exactly on success; values are reset or untouched, untouched on a throw |
| LoanForm.YupResolver | src/components/LoanApplicationForm.tsx:108-110 | the resolver finds no errors exactly when every schema field is present, text fields are non-empty and amount fields cast to a number |
| LoanForm.HandleSubmit | src/components/LoanApplicationForm.tsx:195 | a rejected submission carries the resolver's non-empty errors; a sent one passed the resolver and ran `onSubmit` |
| LoanForm.YupSubmitGate | src/components/LoanApplicationForm.tsx:108-110 | with the page's schema, submit is rejected exactly when some field is missing, empty, or not a number where one is required, and the errors are the schema's messages |
| LoanForm.ResetFormRejected | src/components/LoanApplicationForm.tsx:150 | a form just cleared by `reset()`, every input reading "", cannot be submitted |
| LoanForm.HandleBack | src/components/LoanApplicationForm.tsx:159-162 | going back clears the report and the values |
| LoanForm.Edit | src/components/LoanApplicationForm.tsx:195-470 | typing into a field changes that field's value only |
| LoanForm.InlineHtml | src/components/LoanApplicationForm.tsx:187 | the inline HTML has no "```" left and is no longer than the report |
| LoanForm.InlineAgreesWithCleanup | src/components/LoanApplicationForm.tsx:187 | the inline view deletes fences exactly as `stripHtmlTags` does |
| LoanForm.Render | src/components/LoanApplicationForm.tsx:163-482 | the report view shows exactly when the report is truthy (not null, not ""); it shows the report with the fences stripped, so no fence is left in it, and gives the PDF the cleaned text; the spinner shows exactly while loading; the labels read "Generating PDF..." / "Submitting..." exactly while loading |
| LoanForm.SubmitWhileLoading | src/components/LoanApplicationForm.tsx:470-475 | while loading, a valid form is still sent: nothing prevents a second request |
| LoanForm.BackShowsForm | src/components/LoanApplicationForm.tsx:159-166 | after going back the form is on screen |
| LoanForm.OkSubmissionShowsReport | src/components/LoanApplicationForm.tsx:142-144 | a submission the resolver lets through whose request comes back ok with a non-empty first choice switches to the report view, with that choice as inline HTML and as cleaned PDF text |
| LoanForm.EmptyReportShowsForm | src/components/LoanApplicationForm.tsx:166 | an empty report string leaves the form on screen |
| LoanForm.EmptyReplyClearsForm | src/components/LoanApplicationForm.tsx:142-166 | an ok reply whose first choice is "" raises no alert and resets the typed values, and the form is shown again |
| LoanForm.StepSettles | src/components/LoanApplicationForm.tsx:154-156 | once a handler has run to completion from a settled state, `loading` is false again (the `finally`) |
| LoanForm.NeverLoadingBetweenActions | src/components/LoanApplicationForm.tsx:112-162 | once every handler of a sequence of actions has run to completion, `loading` is false; states while a request is outstanding are not covered |
| LoanForm.StepReport | src/components/LoanApplicationForm.tsx:142-144 | the only action that puts a new report on screen is a submission the resolver passed whose request came back ok, and the report is that response's first choice |
| LoanForm.ReportComesFromOkSubmission | src/components/LoanApplicationForm.tsx:112-162 | after any sequence of actions, a report on screen is the first choice of an earlier ok response to a submission the resolver passed |
| LoanForm.ReportComesFromAcceptedSubmission | src/components/LoanApplicationForm.tsx:108-162 | with the page's schema, a report on screen answers a submission whose values were all present, non-empty, and numbers where required, when it was sent |

## Left out
- Strings. A `string` here is a sequence of code points, while JavaScript strings are UTF-16 code units. Lengths such as `|r| <= |text|` therefore count code points, and lone surrogates cannot be represented. Every pattern and white-space character involved is a single BMP code unit and none is a surrogate, so the rewriting steps act the same on both.

- The DOM step of `stripHtmlTags` (src/lib/utils.ts:5-12): HTML parsing, `<style>`/`<script>` removal and `textContent`. It is browser behaviour and is a function parameter.
- The HTTP request, the prompt text, the API key and JSON decoding (src/components/LoanApplicationForm.tsx:116-140). They are I/O. Their outcome is the `Response` input, and the content of `choices[0].message.content` is taken to be a string.
- `console.error` logging. It has no effect on state.
- Yup's number cast. It is a predicate parameter, because the model has no floating point.
- The `null` passed to `stripHtmlTags` at line 163 while no report exists. `parseFromString` converts it to the string "null", so the call returns "null"; that value is never shown, because line 166 then renders the form. The model calls the clean-up only when a report exists.
- The markup, the CSS classes, the field labels and the per-field error lines (src/components/LoanApplicationForm.tsx:191-470).
- The PDF layout (src/components/GeneratedReportPDF.tsx).
- The page wrapper (src/app/page.tsx).
- Asynchrony. Each handler runs to completion before the next action, and a `Submit` carries how its request ended. The states while a request is outstanding, when the user may still type or submit again, are not replayed. The interleaving of two overlapping submissions is not modelled; `SubmitWhileLoading` only shows that a second one is not blocked.
- Out-of-view events. A session may contain `Type` or `Submit` while the report view is shown, and `Back` while the form is shown, although the page offers no control for them there. Sessions therefore include more than the page allows, and every property proved about all sessions holds for the real ones as well.
- LoanForm.InlineHtml: does not model how the browser renders the HTML it is given.
- Cleanup.StripHtmlTags: its guarantees are stated about the text after extraction, because extraction is a parameter.

=== FILE: cleanup.dfy ===
/**
  The text clean-up of `stripHtmlTags` (src/lib/utils.ts). The function first
  lets the browser parse the report as HTML, drops `<style>` and `<script>`
  elements and reads the body's `textContent`; that DOM step is not modelled
  and reaches this module as a parameter. What follows it is pure string
  rewriting, applied in a fixed order:

    1. delete every "```html", then every "```";
    2. replace each run of two or more spaces with one space;
    3. replace each run of three or more line feeds with two;
    4. trim white space from both ends.
 */
module Cleanup {
  import opened Runs
  import opened Rewrite
  import opened Whitespace

  /** The opening marker of an HTML code block in the completion endpoint's reply. */
  const OpeningFence: string := "```html"
  /** The bare code-block marker, which also closes the block. */
  const Fence: string := "```"
  const DoubleSpace: string := "  "
  const TripleNewline: string := "\n\n\n"

  lemma MarkersAreRuns()
    ensures Fence == Repeat('`', 3)
    ensures DoubleSpace == Repeat(' ', 2)
    ensures TripleNewline == Repeat('\n', 3)
  {
  }

  /** Step 1: `.replace(/```html/g, '').replace(/```/g, '')`. */
  function StripFences(s: string): (r: string)
    ensures !Occurs(Fence, r)
    ensures |r| <= |s|
  {
    var r := RemoveAll(RemoveAll(s, OpeningFence), Fence);
    MarkersAreRuns();
    RemoveRepeatNoRun(RemoveAll(s, OpeningFence), '`', 3);
    NoRunIffAbsent(r, '`', 3);
    r
  }

  /**
    Step 2: `.replace(/[ ]{2,}/g, ' ')`. Only U+0020 is collapsed; tabs and
    other white space are left as they are. Fence-free input stays fence-free.
   */
  function CollapseSpaces(s: string): (r: string)
    ensures !Occurs(DoubleSpace, r)
    ensures !Occurs(Fence, s) ==> !Occurs(Fence, r)
    ensures |r| <= |s|
  {
    var r := CollapseRuns(s, ' ', 2, 1);
    MarkersAreRuns();
    CollapseNoRun(s, ' ', 2, 1);
    NoRunIffAbsent(r, ' ', 2);
    CollapseKeepsAbsent(s, ' ', 2, 1, '`', 3);
    r
  }

  /**
    Step 3: `.replace(/\n{3,}/g, '\n\n')`. Input without fences or double
    spaces keeps that property.
   */
  function CollapseNewlines(s: string): (r: string)
    ensures !Occurs(TripleNewline, r)
    ensures !Occurs(Fence, s) ==> !Occurs(Fence, r)
    ensures !Occurs(DoubleSpace, s) ==> !Occurs(DoubleSpace, r)
    ensures |r| <= |s|
  {
    var r := CollapseRuns(s, '\n', 3, 2);
    MarkersAreRuns();
    CollapseNoRun(s, '\n', 3, 2);
    NoRunIffAbsent(r, '\n', 3);
    CollapseKeepsAbsent(s, '\n', 3, 2, '`', 3);
    CollapseKeepsAbsent(s, '\n', 3, 2, ' ', 2);
    r
  }

  /** Collapsing runs of `c` cannot create `n` copies of another character `d` in a row. */
  lemma CollapseKeepsAbsent(s: string, c: char, min: nat, keep: nat, d: char, n: nat)
    requires 0 < keep < min && d != c && n > 0
    ensures !Occurs(Repeat(d, n), s) ==> !Occurs(Repeat(d, n), CollapseRuns(s, c, min, keep))
  {
    NoRunIffAbsent(s, d, n);
    NoRunIffAbsent(CollapseRuns(s, c, min, keep), d, n);
    if !Occurs(Repeat(d, n), s) {
      CollapseKeepsNoRun(s, c, min, keep, d, n);
    }
  }

  /** Trimming only cuts the ends off, so it cannot create a run of `n` copies of `c`. */
  lemma TrimKeepsAbsent(s: string, c: char, n: nat)
    requires !Occurs(Repeat(c, n), s)
    ensures !Occurs(Repeat(c, n), Trim(s))
  {
    TrimIsSlice(s);
    OccursInSlice(Repeat(c, n), s, LeadingWhiteSpace(s), Trim(s));
  }

  /** Steps 1 to 4 on the extracted text: the body of `stripHtmlTags` after the DOM step. */
  function CleanText(text: string): (r: string)
    ensures !Occurs(Fence, r)
    ensures !Occurs(DoubleSpace, r)
    ensures !Occurs(TripleNewline, r)
    ensures NoEdgeWhiteSpace(r)
    ensures |r| <= |text|
  {
    var c := CollapseNewlines(CollapseSpaces(StripFences(text)));
    var r := Trim(c);
    MarkersAreRuns();
    TrimKeepsAbsent(c, '`', 3);
    TrimKeepsAbsent(c, ' ', 2);
    TrimKeepsAbsent(c, '\n', 3);
    r
  }

  /**
    `stripHtmlTags(html)`. `textContent` stands for the browser's parse,
    `<style>`/`<script>` removal and `doc.body.textContent || ""`.
   */
  function StripHtmlTags(html: string, textContent: string -> string): (r: string)
    ensures !Occurs(Fence, r)
    ensures !Occurs(DoubleSpace, r)
    ensures !Occurs(TripleNewline, r)
    ensures NoEdgeWhiteSpace(r)
    ensures |r| <= |textContent(html)|
  {
    CleanText(textContent(html))
  }

  /**
    Clean-up leaves a text alone exactly when it is already clean: no fence,
    no double space, no three line feeds in a row, no white space at either
    end. So single line feeds, paragraph breaks and everything else in clean
    text survive.
   */
  lemma CleanFixpointIff(s: string)
    ensures CleanText(s) == s <==>
      && !Occurs(Fence, s) && !Occurs(DoubleSpace, s) && !Occurs(TripleNewline, s)
      && NoEdgeWhiteSpace(s)
  {
    if !Occurs(Fence, s) && !Occurs(DoubleSpace, s) && !Occurs(TripleNewline, s) && NoEdgeWhiteSpace(s) {
      MarkersAreRuns();
      OpeningFenceNeedsFence(s);
      RemoveAllUnchangedIff(s, OpeningFence);
      RemoveAllUnchangedIff(s, Fence);
      assert StripFences(s) == s;
      NoRunIffAbsent(s, ' ', 2);
      CollapseUnchangedIff(s, ' ', 2, 1);
      NoRunIffAbsent(s, '\n', 3);
      CollapseUnchangedIff(s, '\n', 3, 2);
      TrimUnchangedIff(s);
    }
  }

  /** Cleaning already-clean text changes nothing. */
  lemma CleanIdempotent(text: string)
    ensures CleanText(CleanText(text)) == CleanText(text)
  {
    CleanFixpointIff(CleanText(text));
  }

  /** Without a bare fence there is no opening fence either. */
  lemma OpeningFenceNeedsFence(s: string)
    ensures Occurs(OpeningFence, s) ==> Occurs(Fence, s)
  {
    if Occurs(OpeningFence, s) {
      var i :| 0 <= i <= |s| && OpeningFence <= s[i..];
      assert Fence <= s[i..];
    }
  }

  // ----- the order of the two fence deletions ------------------------------

  /** The two deletions of step 1 the other way round; the source does not do this. */
  function SwappedStripFences(s: string): string {
    RemoveAll(RemoveAll(s, Fence), OpeningFence)
  }

  /** Deleting a word none of whose characters can start the pattern keeps the word. */
  lemma {:induction false} RemoveAllKeepsWord(w: string, t: string, p: string)
    requires |p| > 0
    requires forall k :: 0 <= k < |w| ==> w[k] != p[0]
    ensures RemoveAll(w + t, p) == w + RemoveAll(t, p)
    decreases |w|
  {
    if |w| > 0 {
      assert w + t == [w[0]] + (w[1..] + t);
      RemoveAllKeepsHead(w[0], w[1..] + t, p);
      RemoveAllKeepsWord(w[1..], t, p);
      assert w == [w[0]] + w[1..];
    } else {
      assert w + t == t;
    }
  }

  /** An opening fence disappears whole, leaving no "html" behind. */
  lemma OpeningFenceVanishes(t: string)
    ensures StripFences(OpeningFence + t) == StripFences(t)
  {
    RemoveAllLeading(OpeningFence, t);
  }

  /** "```html" cannot overlap itself: each proper prefix ends before "l". */
  lemma OpeningFenceHasNoBorder()
    ensures NoBorder(OpeningFence)
  {
    var p := OpeningFence;
    forall j | 0 < j < |p| ensures p[..j] != p[|p| - j..] {
      assert p[..j][j - 1] != p[|p| - j..][j - 1];
    }
  }

  /**
    Every opening fence present in the input, after a preamble or at the head
    of a later block, is deleted whole by the first replace, "html" included.
   */
  lemma OpeningFenceVanishesAnywhere(x: string, t: string)
    ensures RemoveAll(x + OpeningFence + t, OpeningFence)
         == RemoveAll(x, OpeningFence) + RemoveAll(t, OpeningFence)
  {
    OpeningFenceHasNoBorder();
    assert x + OpeningFence + t == x + (OpeningFence + t);
    RemoveAllSplits(x, OpeningFence, t);
  }

  /**
    The guarantee is about fences present in the input: the first replace can
    join two pieces into a new "```html", which the second replace then cuts
    down to its "```", leaving "html" behind.
   */
  lemma DeletionFormsFence(s: string)
    requires s == "```h```htmltml"
    ensures RemoveAll(s, OpeningFence) == OpeningFence
    ensures StripFences(s) == "html"
  {
    FormedSplit();
    OpeningFenceHasNoBorder();
    RemoveAllSplits("```h", OpeningFence, "tml");
    FormedHead();
    FormedTail();
    FormedJoin();
    FormedStrip();
  }

  lemma FormedSplit()
    ensures "```h```htmltml" == "```h" + (OpeningFence + "tml")
  {
  }

  lemma FormedHead()
    ensures RemoveAll("```h", OpeningFence) == "```h"
  {
    var h := "```h";
    assert !Occurs(OpeningFence, h) by {
      forall i | 0 <= i <= |h| ensures !(OpeningFence <= h[i..]) { }
    }
    RemoveAllUnchangedIff(h, OpeningFence);
  }

  lemma FormedTail()
    ensures RemoveAll("tml", OpeningFence) == "tml"
  {
    RemoveAllKeepsWord("tml", [], OpeningFence);
    assert "tml" + [] == "tml";
  }

  lemma FormedJoin()
    ensures "```h" + "tml" == OpeningFence
    ensures OpeningFence == Fence + "html"
  {
  }

  lemma FormedStrip()
    ensures RemoveAll(Fence + "html", Fence) == "html"
  {
    RemoveAllLeading(Fence, "html");
    RemoveAllKeepsWord("html", [], Fence);
    assert "html" + [] == "html";
  }

  /** Deleting "```" first would strand the "html" of every opening fence. */
  lemma SwappedOrderLeavesHtml(t: string)
    ensures SwappedStripFences(OpeningFence + t) == "html" + SwappedStripFences(t)
  {
    assert OpeningFence + t == Fence + ("html" + t);
    RemoveAllLeading(Fence, "html" + t);
    RemoveAllKeepsWord("html", t, Fence);
    RemoveAllKeepsWord("html", RemoveAll(t, Fence), OpeningFence);
  }

  /** So the order of the two deletions matters. */
  lemma FenceOrderMatters()
    ensures StripFences(OpeningFence) == ""
    ensures SwappedStripFences(OpeningFence) == "html"
  {
    OpeningFenceVanishes("");
    SwappedOrderLeavesHtml("");
    assert OpeningFence + "" == OpeningFence;
  }

  // ----- a worked example --------------------------------------------------

  /** Collapsing runs of `c` keeps a word that has no `c` in it. */
  lemma {:induction false} CollapseKeepsWord(w: string, t: string, c: char, min: nat, keep: nat)
    requires 0 < keep < min
    requires forall k :: 0 <= k < |w| ==> w[k] != c
    ensures CollapseRuns(w + t, c, min, keep) == w + CollapseRuns(t, c, min, keep)
    decreases |w|
  {
    if |w| > 0 {
      assert (w + t)[0] == w[0];
      assert (w + t)[1..] == w[1..] + t;
      CollapseKeepsWord(w[1..], t, c, min, keep);
      assert w == [w[0]] + w[1..];
    } else {
      assert w + t == t;
    }
  }

  /** The report text "```htmlHello   world\n\n\n\nBye```" cleans to "Hello world\n\nBye". */
  lemma CleanExample(s: string)
    requires s == "```htmlHello   world\n\n\n\nBye```"
    ensures CleanText(s) == "Hello world\n\nBye"
  {
    var a := StripFences(s);
    ExampleFences(s);
    var b := CollapseSpaces(a);
    ExampleSpaces(a);
    var c := CollapseNewlines(b);
    ExampleNewlines(b);
    TrimUnchangedIff(c);
  }

  lemma ExampleFences(s: string)
    requires s == "```htmlHello   world\n\n\n\nBye```"
    ensures StripFences(s) == "Hello   world\n\n\n\nBye"
  {
    ExampleFenceDeletions();
  }

  lemma ExampleFenceDeletions()
    ensures RemoveAll(RemoveAll("```htmlHello   world\n\n\n\nBye```", OpeningFence), Fence)
         == "Hello   world\n\n\n\nBye"
  {
    var x := "Hello   world\n\n\n\nBye";
    ExampleSplit();
    RemoveAllLeading(OpeningFence, x + Fence);
    ExampleKeepsText();
    ExampleLoneFence();
    ExampleLastFence();
  }

  lemma ExampleSplit()
    ensures "```htmlHello   world\n\n\n\nBye```" == OpeningFence + ("Hello   world\n\n\n\nBye" + Fence)
  {
  }

  lemma ExampleKeepsText()
    ensures RemoveAll("Hello   world\n\n\n\nBye" + Fence, OpeningFence)
         == "Hello   world\n\n\n\nBye" + RemoveAll(Fence, OpeningFence)
  {
    RemoveAllKeepsWord("Hello   world\n\n\n\nBye", Fence, OpeningFence);
  }

  lemma ExampleLoneFence()
    ensures RemoveAll(Fence, OpeningFence) == Fence
  {
    assert !Occurs(OpeningFence, Fence) by {
      forall i | 0 <= i <= |Fence| ensures !(OpeningFence <= Fence[i..]) { }
    }
    RemoveAllUnchangedIff(Fence, OpeningFence);
  }

  lemma ExampleLastFence()
    ensures RemoveAll("Hello   world\n\n\n\nBye" + Fence, Fence) == "Hello   world\n\n\n\nBye"
  {
    var x := "Hello   world\n\n\n\nBye";
    RemoveAllKeepsWord(x, Fence, Fence);
    RemoveAllLeading(Fence, []);
    assert Fence + [] == Fence;
    assert x + [] == x;
  }

  lemma ExampleSpaces(s: string)
    requires s == "Hello   world\n\n\n\nBye"
    ensures CollapseSpaces(s) == "Hello world\n\n\n\nBye"
  {
    ExampleSpaceRuns();
  }

  lemma ExampleSpaceRuns()
    ensures CollapseRuns("Hello   world\n\n\n\nBye", ' ', 2, 1) == "Hello world\n\n\n\nBye"
  {
    var y := "world\n\n\n\nBye";
    ExampleSpaceSplit();
    CollapseKeepsWord("Hello", Repeat(' ', 3) + y, ' ', 2, 1);
    ExampleOneSpaceRun();
    ExampleNoSpaceRun();
    ExampleSpaceJoin();
  }

  lemma ExampleSpaceSplit()
    ensures "Hello   world\n\n\n\nBye" == "Hello" + (Repeat(' ', 3) + "world\n\n\n\nBye")
  {
  }

  lemma ExampleSpaceJoin()
    ensures "Hello" + (Repeat(' ', 1) + "world\n\n\n\nBye") == "Hello world\n\n\n\nBye"
  {
  }

  lemma ExampleOneSpaceRun()
    ensures CollapseRuns(Repeat(' ', 3) + "world\n\n\n\nBye", ' ', 2, 1)
         == Repeat(' ', 1) + CollapseRuns("world\n\n\n\nBye", ' ', 2, 1)
  {
    CollapseOneRun(3, "world\n\n\n\nBye", ' ', 2, 1);
  }

  lemma ExampleNoSpaceRun()
    ensures CollapseRuns("world\n\n\n\nBye", ' ', 2, 1) == "world\n\n\n\nBye"
  {
    CollapseKeepsWord("world\n\n\n\nBye", [], ' ', 2, 1);
    assert "world\n\n\n\nBye" + [] == "world\n\n\n\nBye";
  }

  lemma ExampleNewlines(s: string)
    requires s == "Hello world\n\n\n\nBye"
    ensures CollapseNewlines(s) == "Hello world\n\nBye"
  {
    ExampleNewlineRuns();
  }

  lemma ExampleNewlineRuns()
    ensures CollapseRuns("Hello world\n\n\n\nBye", '\n', 3, 2) == "Hello world\n\nBye"
  {
    ExampleNewlineSplit();
    CollapseKeepsWord("Hello world", Repeat('\n', 4) + "Bye", '\n', 3, 2);
    ExampleOneNewlineRun();
    ExampleNoNewlineRun();
    ExampleNewlineJoin();
  }

  lemma ExampleNewlineSplit()
    ensures "Hello world\n\n\n\nBye" == "Hello world" + (Repeat('\n', 4) + "Bye")
  {
  }

  lemma ExampleNewlineJoin()
    ensures "Hello world" + (Repeat('\n', 2) + "Bye") == "Hello world\n\nBye"
  {
  }

  lemma ExampleOneNewlineRun()
    ensures CollapseRuns(Repeat('\n', 4) + "Bye", '\n', 3, 2) == Repeat('\n', 2) + CollapseRuns("Bye", '\n', 3, 2)
  {
    CollapseOneRun(4, "Bye", '\n', 3, 2);
  }

  lemma ExampleNoNewlineRun()
    ensures CollapseRuns("Bye", '\n', 3, 2) == "Bye"
  {
    CollapseKeepsWord("Bye", [], '\n', 3, 2);
    assert "Bye" + [] == "Bye";
  }
}

=== FILE: form.dfy ===
/**
  The state and event handlers of the `LoanApplicationForm` component
  (src/components/LoanApplicationForm.tsx): `onSubmit`, `handleBack`, the
  choice between the form view and the report view, and what the report view
  shows. The network call is not modelled: its outcome is an input.
 */
module LoanForm {
  import opened Wrappers
  import opened Runs
  import Rewrite
  import Cleanup
  import Schema

  /**
    How the request in `onSubmit` ended. `Ok` is a response whose `ok` flag is
    set and whose JSON body parsed; `choices` holds each choice's
    `message.content`. `NotOk` is a response without the flag whose JSON body
    parsed. `Threw` is any exception before that point: the fetch failing or
    the body not being JSON.
   */
  datatype Response =
    | Ok(choices: seq<string>)
    | NotOk
    | Threw

  /** The two `alert` texts the handler can show. */
  datatype Alert = ReportFailed | SubmitFailed {
    function Text(): string {
      match this
      case ReportFailed => "Error in generating report. Please try again."
      case SubmitFailed => "Failed to submit form. Please try again."
    }
  }

  /**
    The component's state: the `loading` flag, `generatedReport`
    (`None` for `null`) and react-hook-form's current field values by name.
   */
  datatype Ui = Ui(loading: bool, report: Option<string>, values: map<string, string>)

  /**
    Field values on first render and after `reset()`: the form has no default
    values, so every registered input reads "".
   */
  const Cleared: map<string, string> := Schema.Blank

  const Initial: Ui := Ui(false, None, Cleared)

  /** The result of one handler run: the next state and the alert it raised, if any. */
  datatype Settled = Settled(ui: Ui, alert: Option<Alert>)

  /** `setLoading(true)`, the first statement of `onSubmit`. */
  function BeginSubmit(ui: Ui): (r: Ui)
    ensures r.loading
    ensures r.report == ui.report && r.values == ui.values
  {
    ui.(loading := true)
  }

  /**
    The rest of `onSubmit` once the request has ended, from the `try` to the
    `finally`. On an ok response the report becomes the first choice's
    content; an ok response with no choices throws at `choices[0]` and lands
    in the `catch`. `reset()` runs after the `if`, so it runs on a non-ok
    response too, but never after a throw.
   */
  function Settle(ui: Ui, response: Response): (r: Settled)
    ensures !r.ui.loading
    ensures response.Ok? && |response.choices| > 0 ==>
              r == Settled(Ui(false, Some(response.choices[0]), Cleared), None)
    ensures response.NotOk? ==>
              r == Settled(Ui(false, ui.report, Cleared), Some(ReportFailed))
    ensures response.Threw? || (response.Ok? && |response.choices| == 0) ==>
              r == Settled(Ui(false, ui.report, ui.values), Some(SubmitFailed))
    ensures r.alert.Some? && response.NotOk? ==>
              r.alert.value.Text() == "Error in generating report. Please try again."
    ensures r.alert.Some? && !response.NotOk? ==>
              r.alert.value.Text() == "Failed to submit form. Please try again."
  {
    match response
    case Ok(choices) =>
      if |choices| == 0 then Settled(ui.(loading := false), Some(SubmitFailed))
      else Settled(Ui(false, Some(choices[0]), Cleared), None)
    case NotOk => Settled(Ui(false, ui.report, Cleared), Some(ReportFailed))
    case Threw => Settled(ui.(loading := false), Some(SubmitFailed))
  }

  /** `onSubmit` from start to end, given how its request ended. */
  function OnSubmit(ui: Ui, response: Response): (r: Settled)
    ensures !r.ui.loading
    ensures r.ui.report != ui.report ==>
              response.Ok? && |response.choices| > 0 && r.ui.report == Some(response.choices[0])
    ensures r.alert.None? <==> response.Ok? && |response.choices| > 0
    ensures r.ui.values == Cleared || r.ui.values == ui.values
    ensures r.alert == Some(SubmitFailed) ==> r.ui.values == ui.values
  {
    Settle(BeginSubmit(ui), response)
  }

  /**
    A form resolver: the field errors it finds in the current values, empty
    when the values may be submitted.
   */
  type Resolver = map<string, string> -> map<string, string>

  /** `yupResolver(validationSchema)`. */
  function YupResolver(isNumber: string -> bool): (resolve: Resolver)
    ensures forall values :: resolve(values) == map[] <==> Schema.FieldsValid(values, isNumber)
  {
    Schema.AcceptedIffEveryField(isNumber);
    values => Schema.Validate(values, isNumber)
  }

  /** What pressing submit does: `handleSubmit` validates first and calls `onSubmit` only on success. */
  datatype Submission =
    | Rejected(errors: map<string, string>)
    | Sent(settled: Settled)

  function HandleSubmit(ui: Ui, response: Response, resolve: Resolver): (r: Submission)
    ensures r.Rejected? ==> r.errors != map[] && r.errors == resolve(ui.values)
    ensures r.Sent? ==> resolve(ui.values) == map[] && r.settled == OnSubmit(ui, response)
  {
    var errors := resolve(ui.values);
    if errors != map[] then Rejected(errors) else Sent(OnSubmit(ui, response))
  }

  /**
    With the Yup schema, a submission is rejected exactly when some field
    is missing, empty, or not a number where one is required, and the
    errors shown are the schema's messages.
   */
  lemma YupSubmitGate(ui: Ui, response: Response, isNumber: string -> bool)
    ensures var r := HandleSubmit(ui, response, YupResolver(isNumber));
      && (r.Rejected? <==> !Schema.FieldsValid(ui.values, isNumber))
      && (r.Rejected? ==> r.errors == Schema.Validate(ui.values, isNumber))
  {
  }

  /**
    Every submission that reaches the request resets the form or leaves it
    as it was, and a reset form is rejected by the schema: pressing submit
    again right after a report or a non-ok response sends nothing.
   */
  lemma ResetFormRejected(ui: Ui, response: Response, isNumber: string -> bool)
    requires ui.values == Cleared
    ensures HandleSubmit(ui, response, YupResolver(isNumber)).Rejected?
  {
    Schema.BlankFormErrors(isNumber);
  }

  /** `handleBack`: clear the report and reset the form. */
  function HandleBack(ui: Ui): (r: Ui)
    ensures r.report.None? && r.values == Cleared
    ensures r.loading == ui.loading
  {
    Ui(ui.loading, None, Cleared)
  }

  /** What the user types into a registered input. */
  function Edit(ui: Ui, field: string, text: string): (r: Ui)
    ensures r.values == ui.values[field := text]
    ensures r.loading == ui.loading && r.report == ui.report
  {
    ui.(values := ui.values[field := text])
  }

  // ----- the view -----------------------------------------------------------

  /** JavaScript truthiness of `generatedReport`: `null` and `""` are falsy. */
  predicate Truthy(report: Option<string>) {
    report.Some? && report.value != ""
  }

  /**
    The rendered component. The form view carries the submit button's label
    and whether the spinner shows. The report view carries the inline HTML,
    which is the raw report with its fence markers deleted, the text handed
    to the PDF, which is the report after `stripHtmlTags`, and the download
    link's label.
   */
  datatype Screen =
    | FormScreen(submitLabel: string, spinner: bool)
    | ReportScreen(inlineHtml: string, pdfText: string, pdfLinkLabel: string)

  /** The inline display's fence removal: `.replace(/```html/g, '').replace(/```/g, '')`. */
  function InlineHtml(report: string): (r: string)
    ensures !Occurs(Cleanup.Fence, r)
    ensures |r| <= |report|
  {
    var r := Rewrite.RemoveAll(Rewrite.RemoveAll(report, Cleanup.OpeningFence), Cleanup.Fence);
    assert r == Cleanup.StripFences(report);
    r
  }

  /** The inline view and the PDF text remove fences the same way, so neither keeps a stray "html". */
  lemma InlineAgreesWithCleanup(report: string)
    ensures InlineHtml(report) == Cleanup.StripFences(report)
  {
  }

  /**
    The render: the report view exactly when `generatedReport` is truthy;
    the labels read "Submitting..." and "Generating PDF..." exactly while
    `loading` is set.
   */
  function Render(ui: Ui, textContent: string -> string): (r: Screen)
    ensures r.ReportScreen? <==> Truthy(ui.report)
    ensures r.ReportScreen? ==> r.inlineHtml == InlineHtml(ui.report.value)
    ensures r.ReportScreen? ==> !Occurs(Cleanup.Fence, r.inlineHtml)
    ensures r.ReportScreen? ==> r.pdfText == Cleanup.StripHtmlTags(ui.report.value, textContent)
    ensures r.ReportScreen? ==> (r.pdfLinkLabel == "Generating PDF..." <==> ui.loading)
    ensures r.FormScreen? ==> (r.submitLabel == "Submitting..." <==> ui.loading) && r.spinner == ui.loading
  {
    if Truthy(ui.report) then
      ReportScreen(InlineHtml(ui.report.value), Cleanup.StripHtmlTags(ui.report.value, textContent),
                   if ui.loading then "Generating PDF..." else "Download PDF")
    else FormScreen(if ui.loading then "Submitting..." else "Submit Application", ui.loading)
  }

  /**
    Nothing guards against a second submission: the submit button is never
    disabled, so a valid form is sent again while the first request is
    still loading.
   */
  lemma SubmitWhileLoading(ui: Ui, response: Response, resolve: Resolver)
    requires ui.loading && resolve(ui.values) == map[]
    ensures Render(ui, s => s).FormScreen? ==> Render(ui, s => s).submitLabel == "Submitting..."
    ensures HandleSubmit(ui, response, resolve).Sent?
  {
  }

  // ----- sessions -----------------------------------------------------------

  /** A user action: typing into a field, pressing submit (with how its request ends), or going back. */
  datatype Event =
    | Type(field: string, text: string)
    | Submit(response: Response)
    | Back

  /** The state after one action. A rejected submission changes nothing. */
  function Step(ui: Ui, e: Event, resolve: Resolver): Ui {
    match e
    case Type(field, text) => Edit(ui, field, text)
    case Submit(response) =>
      (match HandleSubmit(ui, response, resolve)
       case Rejected(_) => ui
       case Sent(settled) => settled.ui)
    case Back => HandleBack(ui)
  }

  /** The state after a sequence of actions, one handler at a time. */
  function Replay(ui: Ui, events: seq<Event>, resolve: Resolver): Ui
    decreases |events|
  {
    if |events| == 0 then ui
    else Step(Replay(ui, events[..|events| - 1], resolve), events[|events| - 1], resolve)
  }

  /**
    Once a handler has run to completion, starting from a settled state, the
    component is settled again: `finally` always clears `loading`.
   */
  lemma StepSettles(ui: Ui, e: Event, resolve: Resolver)
    requires !ui.loading
    ensures !Step(ui, e, resolve).loading
  {
  }

  /**
    When every handler has run to completion, `loading` is false. Requests
    that are still outstanding are not part of a replay (each `Submit`
    carries how its request ended), so this says nothing about the moments
    while one is pending.
   */
  lemma {:induction false} NeverLoadingBetweenActions(events: seq<Event>, resolve: Resolver)
    ensures !Replay(Initial, events, resolve).loading
    decreases |events|
  {
    if |events| > 0 {
      var prefix := events[..|events| - 1];
      NeverLoadingBetweenActions(prefix, resolve);
      StepSettles(Replay(Initial, prefix, resolve), events[|events| - 1], resolve);
    }
  }

  /**
    Action `i` of `events` was a submission the resolver let through, whose
    request came back ok with `report` as its first choice.
   */
  predicate OkSubmissionAt(events: seq<Event>, i: int, report: string, resolve: Resolver)
    requires 0 <= i < |events|
  {
    && events[i].Submit? && events[i].response.Ok?
    && |events[i].response.choices| > 0
    && events[i].response.choices[0] == report
    && resolve(Replay(Initial, events[..i], resolve).values) == map[]
  }

  /**
    The only action that puts a new report on screen is a submission the
    resolver let through whose request came back ok; it shows that
    response's first choice.
   */
  lemma StepReport(ui: Ui, e: Event, resolve: Resolver)
    ensures var u := Step(ui, e, resolve);
      u.report.Some? && u.report != ui.report ==>
        && e.Submit? && e.response.Ok?
        && |e.response.choices| > 0
        && e.response.choices[0] == u.report.value
        && resolve(ui.values) == map[]
  {
  }

  /** A report on screen is the first choice of an ok response to a submission the resolver let through. */
  lemma {:induction false} ReportComesFromOkSubmission(events: seq<Event>, resolve: Resolver)
    ensures var u := Replay(Initial, events, resolve);
      u.report.Some? ==> exists i :: 0 <= i < |events| && OkSubmissionAt(events, i, u.report.value, resolve)
    decreases |events|
  {
    var n := |events|;
    if n > 0 {
      var prefix := events[..n - 1];
      var before := Replay(Initial, prefix, resolve);
      var u := Replay(Initial, events, resolve);
      ReportComesFromOkSubmission(prefix, resolve);
      StepReport(before, events[n - 1], resolve);
      if u.report.Some? {
        if u.report != before.report {
          assert events[..n - 1] == prefix;
          assert OkSubmissionAt(events, n - 1, u.report.value, resolve);
        } else {
          var i :| 0 <= i < n - 1 && OkSubmissionAt(prefix, i, before.report.value, resolve);
          assert prefix[i] == events[i];
          assert prefix[..i] == events[..i];
          assert OkSubmissionAt(events, i, u.report.value, resolve);
        }
      }
    }
  }

  /**
    With the Yup schema: a report on screen answers a submission whose field
    values were all present, non-empty, and numbers where the schema wants
    numbers, at the moment it was sent.
   */
  lemma ReportComesFromAcceptedSubmission(events: seq<Event>, isNumber: string -> bool)
    ensures var u := Replay(Initial, events, YupResolver(isNumber));
      u.report.Some? ==>
        exists i :: 0 <= i < |events|
          && OkSubmissionAt(events, i, u.report.value, YupResolver(isNumber))
          && Schema.FieldsValid(Replay(Initial, events[..i], YupResolver(isNumber)).values, isNumber)
  {
    ReportComesFromOkSubmission(events, YupResolver(isNumber));
  }

  /**
    A submission the resolver lets through whose request comes back ok with a
    non-empty first choice switches to the report view, showing that choice.
   */
  lemma OkSubmissionShowsReport(ui: Ui, choices: seq<string>, resolve: Resolver, textContent: string -> string)
    requires resolve(ui.values) == map[] && |choices| > 0 && choices[0] != ""
    ensures var screen := Render(Step(ui, Submit(Ok(choices)), resolve), textContent);
      && screen.ReportScreen?
      && screen.inlineHtml == InlineHtml(choices[0])
      && screen.pdfText == Cleanup.StripHtmlTags(choices[0], textContent)
  {
  }

  /** Going back always shows the form, whatever was on screen. */
  lemma BackShowsForm(ui: Ui, textContent: string -> string)
    ensures Render(HandleBack(ui), textContent).FormScreen?
  {
  }

  /** A report that is the empty string leaves the form on screen. */
  lemma EmptyReportShowsForm(ui: Ui, textContent: string -> string)
    requires ui.report == Some("")
    ensures Render(ui, textContent).FormScreen?
  {
  }

  /**
    An ok reply whose first choice is empty raises no alert and resets the
    typed values, yet the form comes back: the entered data is lost without
    a word.
   */
  lemma EmptyReplyClearsForm(ui: Ui, choices: seq<string>, textContent: string -> string)
    requires |choices| > 0 && choices[0] == ""
    ensures OnSubmit(ui, Ok(choices)).alert.None?
    ensures OnSubmit(ui, Ok(choices)).ui.values == Cleared
    ensures Render(OnSubmit(ui, Ok(choices)).ui, textContent).FormScreen?
  {
    EmptyReportShowsForm(OnSubmit(ui, Ok(choices)).ui, textContent);
  }
}

=== FILE: rewrite.dfy ===
/**
  The two kinds of global regular-expression replacement the report clean-up
  uses, written as left-to-right scans the way JavaScript's
  `String.prototype.replace` runs a regular expression with the `g` flag:
  the scan tries a match at the current position, and on a match emits the
  replacement and continues after the matched text, otherwise it keeps one
  character and moves one position on. Matches therefore never overlap.
 */
module Rewrite {
  import opened Runs

  /** `s.replace(/p/g, '')` for a literal pattern `p`: delete every occurrence the scan finds. */
  function RemoveAll(s: seq<char>, p: seq<char>): (r: seq<char>)
    requires |p| > 0
    ensures |r| <= |s|
    decreases |s|
  {
    if |s| == 0 then []
    else if p <= s then RemoveAll(s[|p|..], p)
    else [s[0]] + RemoveAll(s[1..], p)
  }

  /**
    `s.replace(/c{min,}/g, keep copies of c)`: the quantifier is greedy, so a
    match takes the whole run of `c`, and runs shorter than `min` are kept as
    they are. `keep` is below `min`, which is what makes the result shorter.
   */
  function CollapseRuns(s: seq<char>, c: char, min: nat, keep: nat): (r: seq<char>)
    requires 0 < keep < min
    ensures |r| <= |s|
    decreases |s|
  {
    if |s| == 0 then []
    else if Run(s, c) >= min then Repeat(c, keep) + CollapseRuns(s[Run(s, c)..], c, min, keep)
    else [s[0]] + CollapseRuns(s[1..], c, min, keep)
  }

  // ----- RemoveAll ---------------------------------------------------------

  /** Removal changes the string exactly when the pattern occurs in it. */
  lemma {:induction false} RemoveAllUnchangedIff(s: seq<char>, p: seq<char>)
    requires |p| > 0
    ensures RemoveAll(s, p) == s <==> !Occurs(p, s)
  {
    if |s| == 0 {
      assert !Occurs(p, s) by {
        forall i | 0 <= i <= |s| ensures !(p <= s[i..]) { }
      }
    } else if p <= s {
      assert Occurs(p, s) by { assert p <= s[0..]; }
    } else {
      RemoveAllUnchangedIff(s[1..], p);
      assert Occurs(p, s) <==> Occurs(p, s[1..]) by {
        if Occurs(p, s) {
          var i :| 0 <= i <= |s| && p <= s[i..];
          assert i > 0 by { assert s[0..] == s; }
          assert s[i..] == s[1..][i - 1..];
        }
        if Occurs(p, s[1..]) {
          var i :| 0 <= i <= |s[1..]| && p <= s[1..][i..];
          assert s[1..][i..] == s[i + 1..];
        }
      }
      assert [s[0]] + s[1..] == s;
    }
  }

  /** An occurrence at the front is deleted outright. */
  lemma RemoveAllLeading(p: seq<char>, t: seq<char>)
    requires |p| > 0
    ensures RemoveAll(p + t, p) == RemoveAll(t, p)
  {
    assert p <= p + t;
    assert (p + t)[|p|..] == t;
  }

  /** A first character that cannot start the pattern is kept. */
  lemma RemoveAllKeepsHead(a: char, t: seq<char>, p: seq<char>)
    requires |p| > 0 && p[0] != a
    ensures RemoveAll([a] + t, p) == [a] + RemoveAll(t, p)
  {
    assert ([a] + t)[1..] == t;
  }

  /** No proper prefix of `p` is also a suffix of it, so two copies of `p` can never overlap. */
  predicate NoBorder(p: seq<char>) {
    forall j :: 0 < j < |p| ==> p[..j] != p[|p| - j..]
  }

  /** With no border, a match cannot start in `x` and run on into a copy of `p` that follows it. */
  lemma NoMatchAcross(x: seq<char>, p: seq<char>, t: seq<char>)
    requires NoBorder(p) && 0 < |x| < |p|
    ensures !(p <= x + (p + t))
  {
    var j := |p| - |x|;
    assert p[..j] != p[|p| - j..];
    var k :| 0 <= k < j && p[k] != p[|x| + k];
    assert (x + (p + t))[|x| + k] == p[k];
  }

  /**
    A copy of a border-free pattern is deleted whole wherever it stands: the
    scan over `x` ends exactly where the copy begins.
   */
  lemma {:induction false} RemoveAllSplits(x: seq<char>, p: seq<char>, t: seq<char>)
    requires |p| > 0 && NoBorder(p)
    ensures RemoveAll(x + (p + t), p) == RemoveAll(x, p) + RemoveAll(t, p)
    decreases |x|
  {
    var s := x + (p + t);
    if |x| == 0 {
      assert s == p + t;
      RemoveAllLeading(p, t);
    } else if |x| < |p| {
      NoMatchAcross(x, p, t);
      assert !(p <= x);
      assert s[1..] == x[1..] + (p + t);
      RemoveAllSplits(x[1..], p, t);
      ConcatAssoc([x[0]], RemoveAll(x[1..], p), RemoveAll(t, p));
    } else if p <= x {
      assert p <= s;
      SliceOfAppend(x, p + t, |p|);
      RemoveAllSplits(x[|p|..], p, t);
    } else {
      assert !(p <= s);
      assert s[1..] == x[1..] + (p + t);
      RemoveAllSplits(x[1..], p, t);
      ConcatAssoc([x[0]], RemoveAll(x[1..], p), RemoveAll(t, p));
    }
  }

  /**
    Deleting `n` copies of `c` at a time leaves, of each run, its length
    modulo `n`: the scan starts at the head of the run and eats it from left
    to right.
   */
  lemma {:induction false} RemoveRepeatLeadingRun(s: seq<char>, c: char, n: nat)
    requires n > 0
    ensures Run(RemoveAll(s, Repeat(c, n)), c) == Run(s, c) % n
    decreases |s|
  {
    var p := Repeat(c, n);
    var r := RemoveAll(s, p);
    var k := Run(s, c);
    RepeatIsPrefix(s, c, n);
    if |s| == 0 {
      ModSmall(0, n);
    } else if p <= s {
      assert r == RemoveAll(s[n..], p);
      RunAfterPrefix(s, c, n);
      RemoveRepeatLeadingRun(s[n..], c, n);
      ModSubtract(k, n);
    } else if s[0] == c {
      var r' := RemoveAll(s[1..], p);
      assert r == [c] + r';
      RemoveRepeatLeadingRun(s[1..], c, n);
      ModSmall(k - 1, n);
      ModSmall(k, n);
      RunCons(c, r');
    } else {
      assert r == [s[0]] + RemoveAll(s[1..], p);
      ModSmall(0, n);
    }
  }

  /** One more `c` in front lengthens the leading run by one. */
  lemma RunCons(c: char, t: seq<char>)
    ensures Run([c] + t, c) == 1 + Run(t, c)
  {
    assert ([c] + t)[1..] == t;
  }

  /** Cutting `n` copies of `c` off the front of a run shortens it by `n`. */
  lemma RunAfterPrefix(s: seq<char>, c: char, n: nat)
    requires n <= Run(s, c)
    ensures Run(s[n..], c) == Run(s, c) - n
  {
    assert s == s[..n] + s[n..];
    assert forall k :: 0 <= k < n ==> s[..n][k] == c;
    RunUnique(s[..n], c, n);
    RunAppend(s[..n], s[n..], c);
  }

  lemma ModSubtract(k: nat, n: nat)
    requires 0 < n <= k
    ensures (k - n) % n == k % n
  {
    var q := (k - n) / n;
    var r := (k - n) % n;
    assert k == (q + 1) * n + r;
    ModUnique(k, n, q + 1, r);
  }

  lemma ModUnique(k: nat, n: nat, q: int, r: int)
    requires 0 < n && 0 <= r < n && k == q * n + r
    ensures k % n == r
  {
    var q0 := k / n;
    var r0 := k % n;
    assert (q - q0) * n == r0 - r;
    MulBound(q - q0, n);
  }

  lemma MulBound(d: int, n: int)
    requires n > 0
    ensures d >= 1 ==> d * n >= n
    ensures d <= -1 ==> d * n <= -n
  {
  }

  lemma ModSmall(k: nat, n: nat)
    requires k < n
    ensures k % n == k
  {
  }

  /** After deleting every `n` copies of `c` the scan finds, no `n` copies of `c` are left in a row. */
  lemma {:induction false} RemoveRepeatNoRun(s: seq<char>, c: char, n: nat)
    requires n > 0
    ensures NoRun(RemoveAll(s, Repeat(c, n)), c, n)
    decreases |s|
  {
    var p := Repeat(c, n);
    var r := RemoveAll(s, p);
    if |s| == 0 {
      assert forall i | 0 <= i <= |r| :: r[i..] == [];
    } else if p <= s {
      RemoveRepeatNoRun(s[|p|..], c, n);
    } else {
      RemoveRepeatNoRun(s[1..], c, n);
      RemoveRepeatLeadingRun(s, c, n);
      assert r[1..] == RemoveAll(s[1..], p);
      NoRunCons(r, c, n);
    }
  }

  // ----- CollapseRuns ------------------------------------------------------

  /** A run of `c` at the front comes out as `keep` copies if it was long, unchanged otherwise. */
  lemma {:induction false} CollapseLeadingRun(s: seq<char>, c: char, min: nat, keep: nat)
    requires 0 < keep < min
    ensures Run(CollapseRuns(s, c, min, keep), c) == if Run(s, c) >= min then keep else Run(s, c)
    decreases |s|
  {
    var r := CollapseRuns(s, c, min, keep);
    if |s| == 0 {
    } else if Run(s, c) >= min {
      var rest := s[Run(s, c)..];
      CollapseLeadingRun(rest, c, min, keep);
      assert Run(rest, c) == 0;
      RunAppend(Repeat(c, keep), CollapseRuns(rest, c, min, keep), c);
      RunUnique(Repeat(c, keep), c, keep);
    } else if s[0] == c {
      CollapseLeadingRun(s[1..], c, min, keep);
      assert r[1..] == CollapseRuns(s[1..], c, min, keep);
    } else {
    }
  }

  /** Runs of any other character `d` at the front pass through unchanged. */
  lemma {:induction false} CollapseOtherRun(s: seq<char>, c: char, min: nat, keep: nat, d: char)
    requires 0 < keep < min && d != c
    ensures Run(CollapseRuns(s, c, min, keep), d) == Run(s, d)
    decreases |s|
  {
    var r := CollapseRuns(s, c, min, keep);
    if |s| == 0 {
    } else if Run(s, c) >= min {
      assert s[0] == c;
      assert r[0] == c;
    } else {
      CollapseOtherRun(s[1..], c, min, keep, d);
      assert r[1..] == CollapseRuns(s[1..], c, min, keep);
    }
  }

  /** After collapsing, no run of `c` reaches `min`. */
  lemma {:induction false} CollapseNoRun(s: seq<char>, c: char, min: nat, keep: nat)
    requires 0 < keep < min
    ensures NoRun(CollapseRuns(s, c, min, keep), c, min)
    decreases |s|
  {
    var r := CollapseRuns(s, c, min, keep);
    if |s| == 0 {
      assert forall i | 0 <= i <= |r| :: r[i..] == [];
    } else if Run(s, c) >= min {
      var rest := s[Run(s, c)..];
      CollapseNoRun(rest, c, min, keep);
      CollapseLeadingRun(rest, c, min, keep);
      NoRunAfterRepeat(c, keep, CollapseRuns(rest, c, min, keep), c, min);
    } else {
      CollapseNoRun(s[1..], c, min, keep);
      CollapseLeadingRun(s, c, min, keep);
      assert r[1..] == CollapseRuns(s[1..], c, min, keep);
      NoRunCons(r, c, min);
    }
  }

  /** Collapsing runs of `c` never creates a long run of another character. */
  lemma {:induction false} CollapseKeepsNoRun(s: seq<char>, c: char, min: nat, keep: nat, d: char, n: nat)
    requires 0 < keep < min && d != c && n > 0
    requires NoRun(s, d, n)
    ensures NoRun(CollapseRuns(s, c, min, keep), d, n)
    decreases |s|
  {
    var r := CollapseRuns(s, c, min, keep);
    if |s| == 0 {
      assert forall i | 0 <= i <= |r| :: r[i..] == [];
    } else {
      NoRunCons(s, d, n);
      if Run(s, c) >= min {
        var rest := s[Run(s, c)..];
        NoRunSuffix(s, d, n, Run(s, c));
        CollapseKeepsNoRun(rest, c, min, keep, d, n);
        NoRunAfterRepeat(c, keep, CollapseRuns(rest, c, min, keep), d, n);
      } else {
        CollapseKeepsNoRun(s[1..], c, min, keep, d, n);
        CollapseOtherRun(s, c, min, keep, d);
        assert r[1..] == CollapseRuns(s[1..], c, min, keep);
        NoRunCons(r, d, n);
      }
    }
  }

  /** Collapsing changes the string exactly when it has a run of `c` of length `min` or more. */
  lemma {:induction false} CollapseUnchangedIff(s: seq<char>, c: char, min: nat, keep: nat)
    requires 0 < keep < min
    ensures CollapseRuns(s, c, min, keep) == s <==> NoRun(s, c, min)
    decreases |s|
  {
    CollapseNoRun(s, c, min, keep);
    if |s| > 0 && NoRun(s, c, min) {
      NoRunCons(s, c, min);
      CollapseUnchangedIff(s[1..], c, min, keep);
      assert [s[0]] + s[1..] == s;
    }
  }

  /** Gluing on a part that does not start with `c` changes neither the head nor the leading run. */
  lemma AppendHead(x: seq<char>, y: seq<char>, c: char)
    requires |x| > 0 && Run(y, c) == 0
    ensures Run(x + y, c) == Run(x, c) && (x + y)[0] == x[0]
  {
    RunAppend(x, y, c);
  }

  /**
    Collapsing distributes over a split point that is not inside a run of
    `c`: the part after the split does not start with `c`.
   */
  lemma {:induction false} CollapseAppend(x: seq<char>, y: seq<char>, c: char, min: nat, keep: nat)
    requires 0 < keep < min
    requires Run(y, c) == 0
    ensures CollapseRuns(x + y, c, min, keep) == CollapseRuns(x, c, min, keep) + CollapseRuns(y, c, min, keep)
    decreases |x|
  {
    if |x| == 0 {
      assert x + y == y;
    } else if Run(x, c) >= min {
      CollapseAppend(x[Run(x, c)..], y, c, min, keep);
      CollapseAppendLongRun(x, y, c, min, keep);
    } else {
      CollapseAppend(x[1..], y, c, min, keep);
      CollapseAppendShortRun(x, y, c, min, keep);
    }
  }

  /** The step of `CollapseAppend` when `x` starts with a long run. */
  lemma CollapseAppendLongRun(x: seq<char>, y: seq<char>, c: char, min: nat, keep: nat)
    requires 0 < keep < min && Run(y, c) == 0
    requires |x| > 0 && Run(x, c) >= min
    requires CollapseRuns(x[Run(x, c)..] + y, c, min, keep)
          == CollapseRuns(x[Run(x, c)..], c, min, keep) + CollapseRuns(y, c, min, keep)
    ensures CollapseRuns(x + y, c, min, keep) == CollapseRuns(x, c, min, keep) + CollapseRuns(y, c, min, keep)
  {
    AppendHead(x, y, c);
    var k := Run(x, c);
    var a := CollapseRuns(x[k..], c, min, keep);
    var b := CollapseRuns(y, c, min, keep);
    SliceOfAppend(x, y, k);
    assert CollapseRuns(x + y, c, min, keep) == Repeat(c, keep) + (a + b);
    assert CollapseRuns(x, c, min, keep) == Repeat(c, keep) + a;
    ConcatAssoc(Repeat(c, keep), a, b);
  }

  /** The step of `CollapseAppend` when `x` does not start with a long run. */
  lemma CollapseAppendShortRun(x: seq<char>, y: seq<char>, c: char, min: nat, keep: nat)
    requires 0 < keep < min && Run(y, c) == 0
    requires |x| > 0 && Run(x, c) < min
    requires CollapseRuns(x[1..] + y, c, min, keep)
          == CollapseRuns(x[1..], c, min, keep) + CollapseRuns(y, c, min, keep)
    ensures CollapseRuns(x + y, c, min, keep) == CollapseRuns(x, c, min, keep) + CollapseRuns(y, c, min, keep)
  {
    AppendHead(x, y, c);
    var a := CollapseRuns(x[1..], c, min, keep);
    var b := CollapseRuns(y, c, min, keep);
    SliceOfAppend(x, y, 1);
    assert CollapseRuns(x + y, c, min, keep) == [x[0]] + (a + b);
    assert CollapseRuns(x, c, min, keep) == [x[0]] + a;
    ConcatAssoc([x[0]], a, b);
  }

  /** Dropping a prefix of the first part of a concatenation. */
  lemma SliceOfAppend<T>(x: seq<T>, y: seq<T>, k: nat)
    requires k <= |x|
    ensures (x + y)[k..] == x[k..] + y
  {
  }

  lemma ConcatAssoc<T>(a: seq<T>, b: seq<T>, c: seq<T>)
    ensures a + (b + c) == (a + b) + c
  {
  }

  /**
    A whole run followed by something else: `k` copies of `c` become `keep`
    copies when `k >= min` and stay `k` copies otherwise.
   */
  lemma {:induction false} CollapseOneRun(k: nat, t: seq<char>, c: char, min: nat, keep: nat)
    requires 0 < keep < min
    requires Run(t, c) == 0
    ensures CollapseRuns(Repeat(c, k) + t, c, min, keep)
         == Repeat(c, if k >= min then keep else k) + CollapseRuns(t, c, min, keep)
  {
    CollapseAppend(Repeat(c, k), t, c, min, keep);
    if k >= min {
      RunUnique(Repeat(c, k), c, k);
      assert Repeat(c, k)[k..] == [];
      assert CollapseRuns([], c, min, keep) == [];
    } else {
      RunUnique(Repeat(c, k), c, k);
      CollapseShortRun(k, c, min, keep);
    }
  }

  /** A run shorter than `min`, on its own, is left alone. */
  lemma {:induction false} CollapseShortRun(k: nat, c: char, min: nat, keep: nat)
    requires 0 < keep < min && k < min
    ensures CollapseRuns(Repeat(c, k), c, min, keep) == Repeat(c, k)
  {
    var s := Repeat(c, k);
    forall i | 0 <= i <= |s| ensures Run(s[i..], c) < min {
      RunOfPrefix(s, c, |s|);
      assert Run(s[i..], c) <= |s[i..]|;
    }
    CollapseUnchangedIff(s, c, min, keep);
  }

  // ----- what the collapse leaves alone ---------------------------------------

  /** `s` with every `c` taken out: the other characters, in order. */
  function Drop(s: seq<char>, c: char): (r: seq<char>)
    ensures |r| <= |s|
    ensures forall k :: 0 <= k < |r| ==> r[k] != c
  {
    if |s| == 0 then []
    else (if s[0] == c then [] else [s[0]]) + Drop(s[1..], c)
  }

  lemma {:induction false} DropAppend(x: seq<char>, y: seq<char>, c: char)
    ensures Drop(x + y, c) == Drop(x, c) + Drop(y, c)
    decreases |x|
  {
    if |x| == 0 {
      assert x + y == y;
    } else {
      assert (x + y)[0] == x[0];
      assert (x + y)[1..] == x[1..] + y;
      DropAppend(x[1..], y, c);
    }
  }

  lemma {:induction false} DropRepeat(c: char, n: nat)
    ensures Drop(Repeat(c, n), c) == []
    decreases n
  {
    if n > 0 {
      assert Repeat(c, n)[1..] == Repeat(c, n - 1);
      DropRepeat(c, n - 1);
    }
  }

  /**
    Collapsing runs of `c` changes nothing but runs of `c`: with every `c`
    taken out, before and after are the same text. So tabs, other white
    space and every other character survive, in the same order.
   */
  lemma {:induction false} CollapseKeepsOthers(s: seq<char>, c: char, min: nat, keep: nat)
    requires 0 < keep < min
    ensures Drop(CollapseRuns(s, c, min, keep), c) == Drop(s, c)
    decreases |s|
  {
    if |s| > 0 {
      var k := Run(s, c);
      if k >= min {
        var rest := s[k..];
        CollapseKeepsOthers(rest, c, min, keep);
        DropAppend(Repeat(c, keep), CollapseRuns(rest, c, min, keep), c);
        DropRepeat(c, keep);
        assert s[..k] == Repeat(c, k);
        assert s == s[..k] + rest;
        DropAppend(s[..k], rest, c);
        DropRepeat(c, k);
      } else {
        var r := CollapseRuns(s, c, min, keep);
        CollapseKeepsOthers(s[1..], c, min, keep);
        assert r[0] == s[0];
        assert r[1..] == CollapseRuns(s[1..], c, min, keep);
      }
    }
  }
}

=== FILE: runs.dfy ===
/**
  Runs of one repeated character. Every rewriting step of the report clean-up
  either removes a fixed marker or shortens a run of one character, so its
  guarantees are all of the form "no run of `c` as long as `n` is left".
  This module defines runs once and proves the facts the other modules share.
 */
module Runs {

  /** `n` copies of `c`. */
  function Repeat(c: char, n: nat): (r: seq<char>)
    ensures |r| == n
    ensures forall k :: 0 <= k < n ==> r[k] == c
  {
    if n == 0 then [] else [c] + Repeat(c, n - 1)
  }

  /** Length of the run of `c` at the front of `s`: the longest prefix made only of `c`. */
  function Run(s: seq<char>, c: char): (n: nat)
    ensures n <= |s|
    ensures forall k :: 0 <= k < n ==> s[k] == c
    ensures n < |s| ==> s[n] != c
  {
    if |s| > 0 && s[0] == c then 1 + Run(s[1..], c) else 0
  }

  /** `p` occurs somewhere in `s` as a contiguous substring. */
  predicate Occurs(p: seq<char>, s: seq<char>) {
    exists i :: 0 <= i <= |s| && p <= s[i..]
  }

  /** No position of `s` starts a run of `c` of length `n` or more. */
  predicate NoRun(s: seq<char>, c: char, n: nat) {
    forall i :: 0 <= i <= |s| ==> Run(s[i..], c) < n
  }

  /** `s` starts with `n` copies of `c` exactly when its leading run is at least `n` long. */
  lemma RepeatIsPrefix(s: seq<char>, c: char, n: nat)
    ensures Repeat(c, n) <= s <==> Run(s, c) >= n
  {
    var r := Run(s, c);
    assert r < |s| ==> s[r] != c;
  }

  /** Having no long run of `c` is the same as not containing `n` copies of `c` in a row. */
  lemma NoRunIffAbsent(s: seq<char>, c: char, n: nat)
    requires n > 0
    ensures NoRun(s, c, n) <==> !Occurs(Repeat(c, n), s)
  {
    if NoRun(s, c, n) {
      forall i | 0 <= i <= |s|
        ensures !(Repeat(c, n) <= s[i..])
      {
        RepeatIsPrefix(s[i..], c, n);
      }
    } else {
      var i :| 0 <= i <= |s| && Run(s[i..], c) >= n;
      RepeatIsPrefix(s[i..], c, n);
    }
  }

  /** The leading run of a concatenation continues into `y` only when all of `x` is the run. */
  lemma RunAppend(x: seq<char>, y: seq<char>, c: char)
    ensures Run(x + y, c) == if Run(x, c) == |x| then |x| + Run(y, c) else Run(x, c)
  {
    var xy := x + y;
    var n := Run(x, c);
    if n == |x| {
      var m := Run(y, c);
      assert forall k :: 0 <= k < |x| + m ==> xy[k] == c;
      if |x| + m < |xy| {
        assert xy[|x| + m] == y[m];
      }
      RunUnique(xy, c, |x| + m);
    } else {
      assert xy[n] == x[n];
      assert forall k :: 0 <= k < n ==> xy[k] == c;
      RunUnique(xy, c, n);
    }
  }

  /** A prefix of `c` that cannot be extended is the leading run. */
  lemma RunUnique(s: seq<char>, c: char, n: nat)
    requires n <= |s|
    requires forall k :: 0 <= k < n ==> s[k] == c
    requires n < |s| ==> s[n] != c
    ensures Run(s, c) == n
  {
    var m := Run(s, c);
    assert m < |s| ==> s[m] != c;
  }

  /** Removing the first character splits `NoRun` into a head condition and a tail condition. */
  lemma NoRunCons(s: seq<char>, c: char, n: nat)
    requires |s| > 0
    ensures NoRun(s, c, n) <==> Run(s, c) < n && NoRun(s[1..], c, n)
  {
    assert s[0..] == s;
    assert forall j :: 0 <= j <= |s| - 1 ==> s[1..][j..] == s[j + 1..];
    if Run(s, c) < n && NoRun(s[1..], c, n) {
      forall i | 0 <= i <= |s|
        ensures Run(s[i..], c) < n
      {
        if i > 0 {
          assert s[i..] == s[1..][i - 1..];
        }
      }
    }
  }

  /** A run of `c` cannot end inside the slice without ending in `s`. */
  lemma RunOfPrefix(s: seq<char>, c: char, m: nat)
    requires m <= |s|
    ensures Run(s[..m], c) <= Run(s, c)
  {
    var k := Run(s[..m], c);
    assert forall j :: 0 <= j < k ==> s[j] == s[..m][j];
    var r := Run(s, c);
    assert r < |s| ==> s[r] != c;
  }

  /** Every suffix of a string without long runs is without long runs. */
  lemma NoRunSuffix(s: seq<char>, c: char, n: nat, a: nat)
    requires a <= |s|
    requires NoRun(s, c, n)
    ensures NoRun(s[a..], c, n)
  {
    var t := s[a..];
    forall i | 0 <= i <= |t|
      ensures Run(t[i..], c) < n
    {
      assert t[i..] == s[a + i..];
    }
  }

  /**
    Putting `m` copies of `c` in front of a string without long runs of `d`
    keeps it so, provided the new copies do not make a long run themselves.
   */
  lemma {:induction false} NoRunAfterRepeat(c: char, m: nat, t: seq<char>, d: char, n: nat)
    requires NoRun(t, d, n)
    requires d == c ==> m + Run(t, c) < n
    requires d != c ==> n > 0
    ensures NoRun(Repeat(c, m) + t, d, n)
  {
    if m > 0 {
      var s := Repeat(c, m) + t;
      var s' := Repeat(c, m - 1) + t;
      assert s == [c] + s';
      assert s[1..] == s';
      NoRunAfterRepeat(c, m - 1, t, d, n);
      assert s[0] == c;
      if d == c {
        RunAppend(Repeat(c, m - 1), t, c);
        RunUnique(Repeat(c, m - 1), c, m - 1);
        assert Run(s, c) == 1 + Run(s', c);
        assert Run(s, c) == m + Run(t, c);
      } else {
        assert Run(s, d) == 0;
      }
      NoRunCons(s, d, n);
    } else {
      assert Repeat(c, m) + t == t;
    }
  }

  /** A pattern found in a slice of `s` is found in `s`. */
  lemma OccursInSlice(p: seq<char>, s: seq<char>, a: nat, t: seq<char>)
    requires a + |t| <= |s| && t == s[a..a + |t|]
    ensures Occurs(p, t) ==> Occurs(p, s)
  {
    if Occurs(p, t) {
      var i :| 0 <= i <= |t| && p <= t[i..];
      assert t[i..] <= s[a + i..];
    }
  }
}

=== FILE: schema.dfy ===
/**
  The loan application's fields (the `FormData` type) and the per-field rules
  of its Yup `validationSchema`, in src/components/LoanApplicationForm.tsx.
  Field values are the strings the form's inputs hold; whether a string
  "casts to a number" is Yup's business and is a parameter here.
 */
module Schema {
  import opened Wrappers

  /** The TypeScript type a `FormData` field is declared with. */
  datatype FieldType = Text | Number

  /** One Yup rule: `string().required(msg)` or `number().typeError(t).required(msg)`. */
  datatype Rule =
    | RequiredString(requiredMessage: string)
    | RequiredNumber(typeErrorMessage: string, requiredMessage: string)

  const AmountTypeError: string := "Amount must be a number"

  /** The `FormData` fields in declaration order. */
  const FormDataFields: seq<(string, FieldType)> := [
    ("companyName", Text),
    ("businessStructure", Text),
    ("industry", Text),
    ("location", Text),
    ("contactInfo", Text),
    ("businessRevenue", Number),
    ("netProfit", Number),
    ("assets", Text),
    ("liabilities", Text),
    ("bankAccounts", Text),
    ("ownerInfo", Text),
    ("managementTeam", Text),
    ("loanAmount", Number),
    ("loanPurpose", Text),
    ("repaymentPlan", Text),
    ("yearsInBusiness", Number),
    ("numberOfEmployees", Number),
    ("keyCustomers", Text),
    ("licenses", Text),
    ("legalIssues", Text),
    ("financialProjections", Text),
    ("businessPlan", Text),
    ("references", Text)
  ]

  /** The keys of `validationSchema` with their rules, in declaration order. */
  const ValidationSchema: seq<(string, Rule)> := [
    ("companyName", RequiredString("Company Name is required")),
    ("businessStructure", RequiredString("Business Structure is required")),
    ("industry", RequiredString("Industry is required")),
    ("location", RequiredString("Location is required")),
    ("contactInfo", RequiredString("Contact Information is required")),
    ("businessRevenue", RequiredNumber(AmountTypeError, "Business Revenue is required.")),
    ("netProfit", RequiredNumber(AmountTypeError, "Net Profit is required.")),
    ("assets", RequiredString("Assets are required")),
    ("liabilities", RequiredString("Liabilities are required")),
    ("bankAccounts", RequiredString("Current Bank Accounts are required")),
    ("ownerInfo", RequiredString("Owner Information is required")),
    ("managementTeam", RequiredString("Management Team is required")),
    ("loanAmount", RequiredNumber(AmountTypeError, "Loan Amount is required.")),
    ("loanPurpose", RequiredString("Purpose of Loan is required")),
    ("repaymentPlan", RequiredString("Repayment Plan is required")),
    ("yearsInBusiness", RequiredNumber(AmountTypeError, "Years In Business is required.")),
    ("numberOfEmployees", RequiredNumber(AmountTypeError, "Number Of Employees is required.")),
    ("keyCustomers", RequiredString("Key Customers are required")),
    ("licenses", RequiredString("Licenses and Permits are required")),
    ("legalIssues", RequiredString("Legal Issues is required")),
    ("financialProjections", RequiredString("Financial Projections are required")),
    ("businessPlan", RequiredString("Business Plan is required")),
    ("references", RequiredString("References are required"))
  ]

  /** The rule's kind matches the field's declared type. */
  predicate RuleFits(rule: Rule, t: FieldType) {
    rule.RequiredNumber? <==> t == Number
  }

  /** No key appears twice in a table. */
  predicate DistinctKeys<V>(table: seq<(string, V)>) {
    forall i, j :: 0 <= i < j < |table| ==> table[i].0 != table[j].0
  }

  /** The names declared in a table. */
  function Keys<V>(table: seq<(string, V)>): (ks: set<string>)
    ensures forall i :: 0 <= i < |table| ==> table[i].0 in ks
    ensures forall k :: k in ks ==> exists i :: 0 <= i < |table| && table[i].0 == k
  {
    if |table| == 0 then {} else {table[0].0} + Keys(table[1..])
  }

  const NumericFields: set<string> :=
    {"businessRevenue", "netProfit", "loanAmount", "yearsInBusiness", "numberOfEmployees"}

  /** The names of the registered inputs. */
  const FieldNames: set<string> := set i | 0 <= i < |FormDataFields| :: FormDataFields[i].0

  /**
    The values of a form whose inputs are all empty, as on first render and
    after `reset()` with no default values: every registered input reads "".
   */
  const Blank: map<string, string> := map name | name in FieldNames :: ""

  /**
    The schema and `FormData` name the same 23 fields in the same order, each
    once; a field gets a number rule exactly when it is declared `number`, and
    those are the five amount fields.
   */
  lemma SchemaMatchesFormData()
    ensures |ValidationSchema| == |FormDataFields| == 23
    ensures forall i :: 0 <= i < 23 ==> ValidationSchema[i].0 == FormDataFields[i].0
    ensures forall i :: 0 <= i < 23 ==> RuleFits(ValidationSchema[i].1, FormDataFields[i].1)
    ensures forall i :: 0 <= i < 23 ==> (ValidationSchema[i].1.RequiredNumber? <==> ValidationSchema[i].0 in NumericFields)
  {
  }

  lemma SchemaKeysDistinct()
    ensures DistinctKeys(ValidationSchema)
  {
  }

  /**
    Every number rule reports "Amount must be a number" as its type error, and
    every field has its own required message.
   */
  lemma SchemaMessages()
    ensures forall i :: 0 <= i < |ValidationSchema| && ValidationSchema[i].1.RequiredNumber?
              ==> ValidationSchema[i].1.typeErrorMessage == AmountTypeError
    ensures forall i, j :: 0 <= i < j < |ValidationSchema|
              ==> ValidationSchema[i].1.requiredMessage != ValidationSchema[j].1.requiredMessage
  {
  }

  /**
    What Yup reports for one field. A missing value fails `required` for
    either kind of rule; a present string must be non-empty (`required` does
    not trim); a present value for a number rule must cast to a number, and
    otherwise the type error is reported instead of the required message.
   */
  function CheckField(rule: Rule, value: Option<string>, isNumber: string -> bool): (error: Option<string>)
    ensures value.None? ==> error == Some(rule.requiredMessage)
    ensures rule.RequiredString? && value.Some? ==> (error.None? <==> value.value != "")
    ensures rule.RequiredNumber? && value.Some? ==> (error.None? <==> isNumber(value.value))
    ensures rule.RequiredString? && error.Some? ==> error.value == rule.requiredMessage
    ensures rule.RequiredNumber? && value.Some? && error.Some? ==> error.value == rule.typeErrorMessage
  {
    match value
    case None => Some(rule.requiredMessage)
    case Some(v) =>
      match rule
      case RequiredString(msg) => if v == "" then Some(msg) else None
      case RequiredNumber(typeError, _) => if isNumber(v) then None else Some(typeError)
  }

  /**
    Runs every rule of `table` over the form values and collects the failing
    fields with their messages; every field is checked, not just the first
    failing one.
   */
  function ValidateWith(table: seq<(string, Rule)>, values: map<string, string>, isNumber: string -> bool)
    : (errors: map<string, string>)
    requires DistinctKeys(table)
    ensures errors.Keys <= Keys(table)
    ensures forall i :: 0 <= i < |table| ==>
              var e := CheckField(table[i].1, Get(values, table[i].0), isNumber);
              (table[i].0 in errors <==> e.Some?) && (e.Some? ==> errors[table[i].0] == e.value)
  {
    if |table| == 0 then map[]
    else
      var rest := ValidateWith(table[1..], values, isNumber);
      assert forall i :: 1 <= i < |table| ==> table[i] == table[1..][i - 1];
      match CheckField(table[0].1, Get(values, table[0].0), isNumber)
      case None => rest
      case Some(msg) => rest[table[0].0 := msg]
  }

  /** The resolver's verdict on the whole form: the map of field errors. */
  function Validate(values: map<string, string>, isNumber: string -> bool): (errors: map<string, string>)
    ensures errors.Keys <= Keys(ValidationSchema)
    ensures forall i :: 0 <= i < |ValidationSchema| ==>
              var e := CheckField(ValidationSchema[i].1, Get(values, ValidationSchema[i].0), isNumber);
              (ValidationSchema[i].0 in errors <==> e.Some?) && (e.Some? ==> errors[ValidationSchema[i].0] == e.value)
  {
    SchemaKeysDistinct();
    ValidateWith(ValidationSchema, values, isNumber)
  }

  /** The form is submitted only when no field has an error. */
  predicate Accepted(values: map<string, string>, isNumber: string -> bool) {
    Validate(values, isNumber) == map[]
  }

  /** Every text field holds a non-empty string and every amount field a string that casts to a number. */
  predicate FieldsValid(values: map<string, string>, isNumber: string -> bool) {
    forall i :: 0 <= i < |ValidationSchema| ==>
      var name := ValidationSchema[i].0;
      && name in values
      && (ValidationSchema[i].1.RequiredString? ==> values[name] != "")
      && (ValidationSchema[i].1.RequiredNumber? ==> isNumber(values[name]))
  }

  /** A form is accepted exactly when its fields are valid one by one. */
  lemma AcceptedIff(values: map<string, string>, isNumber: string -> bool)
    ensures Accepted(values, isNumber) <==> FieldsValid(values, isNumber)
  {
    var errors := Validate(values, isNumber);
    if errors != map[] {
      var k :| k in errors;
      var i :| 0 <= i < |ValidationSchema| && ValidationSchema[i].0 == k;
      assert CheckField(ValidationSchema[i].1, Get(values, k), isNumber).Some?;
    }
  }

  /** A non-numeric loan amount is reported with the amount type error, whatever else the form holds. */
  lemma NonNumericLoanAmount(values: map<string, string>, isNumber: string -> bool)
    requires "loanAmount" in values && !isNumber(values["loanAmount"])
    ensures "loanAmount" in Validate(values, isNumber)
    ensures Validate(values, isNumber)["loanAmount"] == AmountTypeError
  {
    assert ValidationSchema[12].0 == "loanAmount";
  }

  /** `AcceptedIff` for every form at once. */
  lemma AcceptedIffEveryField(isNumber: string -> bool)
    ensures forall values :: Accepted(values, isNumber) <==> FieldsValid(values, isNumber)
  {
    forall values: map<string, string> ensures Accepted(values, isNumber) <==> FieldsValid(values, isNumber) {
      AcceptedIff(values, isNumber);
    }
  }

  /** Every schema name is a registered input, so a blank form holds "" for each. */
  lemma BlankHoldsEveryField()
    ensures forall i :: 0 <= i < |ValidationSchema| ==> Get(Blank, ValidationSchema[i].0) == Some("")
  {
    SchemaMatchesFormData();
    forall i | 0 <= i < |ValidationSchema|
      ensures Get(Blank, ValidationSchema[i].0) == Some("")
    {
      assert FormDataFields[i].0 in FieldNames;
    }
  }

  /**
    A blank form fails every text rule with its required message, and an
    amount rule with the type error exactly when "" does not cast to a
    number; never with an amount's required message.
   */
  lemma BlankFormErrors(isNumber: string -> bool)
    ensures forall i :: 0 <= i < |ValidationSchema| && ValidationSchema[i].1.RequiredString? ==>
              && ValidationSchema[i].0 in Validate(Blank, isNumber)
              && Validate(Blank, isNumber)[ValidationSchema[i].0] == ValidationSchema[i].1.requiredMessage
    ensures forall i :: 0 <= i < |ValidationSchema| && ValidationSchema[i].1.RequiredNumber? ==>
              && (ValidationSchema[i].0 in Validate(Blank, isNumber) <==> !isNumber(""))
              && (ValidationSchema[i].0 in Validate(Blank, isNumber) ==>
                    Validate(Blank, isNumber)[ValidationSchema[i].0] == AmountTypeError)
    ensures !Accepted(Blank, isNumber)
  {
    BlankHoldsEveryField();
    SchemaMessages();
    assert ValidationSchema[0].1.RequiredString?;
  }
}

=== FILE: trim.dfy ===
/**
  `String.prototype.trim`, which is TrimString(S, start+end) of ECMA-262
  (section 22.1.3.32.1): it removes leading and trailing code points that are
  WhiteSpace (section 12.2) or LineTerminator (section 12.3).
 */
module Whitespace {

  /**
    WhiteSpace: TAB, VT, FF, ZWNBSP and every code point of general category
    Space_Separator (Zs); LineTerminator: LF, CR, LINE SEPARATOR and
    PARAGRAPH SEPARATOR. NEXT LINE (U+0085) is in neither set.
   */
  predicate IsWhiteSpace(ch: char) {
    || ch == '\t' || ch == '\U{000B}' || ch == '\U{000C}' || ch == '\U{FEFF}'
    // Space_Separator
    || ch == ' ' || ch == '\U{00A0}' || ch == '\U{1680}'
    || ('\U{2000}' <= ch <= '\U{200A}')
    || ch == '\U{202F}' || ch == '\U{205F}' || ch == '\U{3000}'
    // LineTerminator
    || ch == '\n' || ch == '\r' || ch == '\U{2028}' || ch == '\U{2029}'
  }

  predicate AllWhiteSpace(s: seq<char>) {
    forall k :: 0 <= k < |s| ==> IsWhiteSpace(s[k])
  }

  /** Neither end of `s` is white space. */
  predicate NoEdgeWhiteSpace(s: seq<char>) {
    |s| == 0 || (!IsWhiteSpace(s[0]) && !IsWhiteSpace(s[|s| - 1]))
  }

  /** `r` is `s` with white space cut off both ends, the cut at the front being `a` long. */
  predicate TrimmedAt(s: seq<char>, a: nat, r: seq<char>) {
    && a + |r| <= |s|
    && r == s[a..a + |r|]
    && AllWhiteSpace(s[..a])
    && AllWhiteSpace(s[a + |r|..])
    && NoEdgeWhiteSpace(r)
  }

  /** Number of white-space code points at the front of `s`. */
  function LeadingWhiteSpace(s: seq<char>): (n: nat)
    ensures n <= |s|
    ensures forall k :: 0 <= k < n ==> IsWhiteSpace(s[k])
    ensures n < |s| ==> !IsWhiteSpace(s[n])
  {
    if |s| > 0 && IsWhiteSpace(s[0]) then 1 + LeadingWhiteSpace(s[1..]) else 0
  }

  /** Number of white-space code points at the back of `s`. */
  function TrailingWhiteSpace(s: seq<char>): (n: nat)
    ensures n <= |s|
    ensures forall k :: |s| - n <= k < |s| ==> IsWhiteSpace(s[k])
    ensures n < |s| ==> !IsWhiteSpace(s[|s| - 1 - n])
  {
    if |s| > 0 && IsWhiteSpace(s[|s| - 1]) then 1 + TrailingWhiteSpace(s[..|s| - 1]) else 0
  }

  /** `s.trim()`. */
  function Trim(s: seq<char>): (r: seq<char>)
    ensures exists a :: TrimmedAt(s, a, r)
  {
    var a := LeadingWhiteSpace(s);
    var t := s[a..];
    var b := TrailingWhiteSpace(t);
    var r := t[..|t| - b];
    assert s[a + |r|..] == t[|t| - b..];
    assert TrimmedAt(s, a, r);
    r
  }

  /** The trimmed string is the slice of `s` that starts after its leading white space. */
  lemma TrimIsSlice(s: seq<char>)
    ensures LeadingWhiteSpace(s) + |Trim(s)| <= |s|
    ensures Trim(s) == s[LeadingWhiteSpace(s)..LeadingWhiteSpace(s) + |Trim(s)|]
  {
  }

  /** There is only one way to cut white space off both ends, so `Trim` is that way. */
  lemma TrimUnique(s: seq<char>, a: nat, r: seq<char>)
    requires TrimmedAt(s, a, r)
    ensures r == Trim(s)
  {
    assert forall k :: 0 <= k < a ==> s[..a][k] == s[k];
    if |r| == 0 {
      WhiteSpaceAround(s, a, r);
      LeadingUnique(s, |s|);
    } else {
      assert s[a] == r[0];
      LeadingUnique(s, a);
      var t := s[a..];
      assert forall k :: |r| <= k < |t| ==> t[k] == s[a + |r|..][k - |r|];
      assert t[|r| - 1] == r[|r| - 1];
      TrailingUnique(t, |t| - |r|);
      assert t[..|r|] == r;
    }
  }

  /** A white-space prefix that cannot be extended is the one `LeadingWhiteSpace` measures. */
  lemma LeadingUnique(s: seq<char>, n: nat)
    requires n <= |s|
    requires forall k :: 0 <= k < n ==> IsWhiteSpace(s[k])
    requires n < |s| ==> !IsWhiteSpace(s[n])
    ensures LeadingWhiteSpace(s) == n
  {
    var m := LeadingWhiteSpace(s);
    assert m < |s| ==> !IsWhiteSpace(s[m]);
  }

  /** A white-space suffix that cannot be extended is the one `TrailingWhiteSpace` measures. */
  lemma TrailingUnique(s: seq<char>, n: nat)
    requires n <= |s|
    requires forall k :: |s| - n <= k < |s| ==> IsWhiteSpace(s[k])
    requires n < |s| ==> !IsWhiteSpace(s[|s| - 1 - n])
    ensures TrailingWhiteSpace(s) == n
  {
    var m := TrailingWhiteSpace(s);
    assert m < |s| ==> !IsWhiteSpace(s[|s| - 1 - m]);
  }

  /** Trimming to nothing means `s` was all white space. */
  lemma WhiteSpaceAround(s: seq<char>, a: nat, r: seq<char>)
    requires TrimmedAt(s, a, r) && |r| == 0
    ensures AllWhiteSpace(s)
  {
    forall k | 0 <= k < |s| ensures IsWhiteSpace(s[k]) {
      if k < a {
        assert s[..a][k] == s[k];
      } else {
        assert s[a..][k - a] == s[k];
      }
    }
  }

  /** Trimming leaves `s` alone exactly when neither end of `s` is white space. */
  lemma TrimUnchangedIff(s: seq<char>)
    ensures Trim(s) == s <==> NoEdgeWhiteSpace(s)
  {
    if NoEdgeWhiteSpace(s) {
      assert TrimmedAt(s, 0, s);
      TrimUnique(s, 0, s);
    }
  }
}

=== FILE: wrappers.dfy ===
/** The optional-value type used where the source has `null` or `undefined`. */
module Wrappers {

  datatype Option<+T> = None | Some(value: T)

  /** Looks up `k` in `m`: JavaScript's `obj[k]`, with a missing key as `None`. */
  function Get<K, V>(m: map<K, V>, k: K): (r: Option<V>)
    ensures r.Some? <==> k in m
    ensures r.Some? ==> r.value == m[k]
  {
    if k in m then Some(m[k]) else None
  }
}
